=== FILE: README.md ===
# Session authentication and name-validated CRUD routes, in Dafny

A model of the request-handling core of a small Express/MongoDB web API:

- **Authentication** (`routes/auth.js`, `routes/protected.js`): register, login and
  logout, and the `requireAuth` gate in front of `GET /api/protected/data`. Each
  handler is a pure transition `Step(response, state, cookie)` over an
  `AuthState` made of the `users` collection and the `userId` held by the
  requesting client's session (`Option<ObjectId>`).
- **Items and categories** (`routes/items.js`, `routes/categories.js`): the
  `validateName` middleware and the five handlers (list, get, create, update,
  delete). The two files run the same code over different collections, so one
  model, `Resources`, is parameterised by a `Collection` that carries the
  messages (`Items`, `Categories`).

Both route files keep two older, commented-out copies of their code; only the
live copies (`routes/items.js:360-610`, `routes/categories.js:113-363`) are modelled.

Modules, leaves first:

| module | file | contents |
|---|---|---|
| `Wrappers` | wrappers.dfy | `Option`, `Result` |
| `JsStrings` | js_strings.dfy | `String.prototype.trim` over the exact ECMAScript whitespace set, and `length` in UTF-16 code units |
| `Json` | json.dfy | JSON request bodies and JavaScript truthiness |
| `Documents` | documents.dfy | a collection as a sequence of `Doc(id, fields)` in natural order; `findOne`, `insertOne`, `updateOne`, `deleteOne` |
| `Http` | http.dfy | responses: status and body |
| `NameValidation` | name_validation.dfy | `validateName` |
| `Resources` | resources.dfy | the item/category handlers |
| `Passwords` | passwords.dfy | the abstract password hasher |
| `Auth` | auth.dfy | register, login, logout, the gate and the protected handler |

Modelling choices:

- A collection is a `seq<Doc<T>>` in natural order, because `findOne` without a
  sort returns the first matching document and `find().toArray()` returns an
  ordered array. `Documents.Lookup` reads the sequence as an id-to-fields map,
  and the "nothing else changes" properties are stated through it.
- The `_id` index is unique, so `InsertOne` fails on a duplicate id. The id
  the driver generates for a new document is a parameter (`newId`). A clash
  takes the handler's catch-all 500 path.
- `ObjectId.isValid` and `new ObjectId(s)` are the two functions of an
  `IdRules` parameter. An `ObjectId` is its canonical string form: 24
  lower-case hexadecimal digits, never empty, so a session holding one is
  truthy.
- `hashPassword`/`comparePassword` are the two functions of a `Hasher`
  parameter. The only assumption about them is `Passwords.Sound`: a password
  compares equal to its own digest.
- Login stores `user._id.toString()` in the session, and the protected
  handler turns it back with `new ObjectId(userId)`. The model stores the
  `ObjectId` itself, treating that round trip as the identity.
- Logging out needs `req.session.destroy` to succeed or fail. That outcome is
  the `destroyError` parameter.

Notes on the code as written:
- registration validates nothing before the uniqueness check;
- sessions carry no TTL;
- logout is not behind `requireAuth`;
- logout answers 500 "Logout failed" when the session store reports an error.

## Model

| member | source | states |
|---|---|---|
| `JsStrings.Trim` | routes/items.js:373 | `name.trim()` leaves no whitespace or line terminator at either end, is never longer than its input, and is empty exactly when the input is all padding |
| `JsStrings.TrimUnique` | routes/items.js:373 | any cut that removes only padding from both ends and leaves non-padding ends yields exactly `Trim(s)`, so `Trim` is the whitespace-stripped string and nothing else |
| `JsStrings.TrimIdempotent` | routes/items.js:379 | trimming a trimmed name changes nothing |
| `JsStrings.TrimIgnoresPadding` | routes/categories.js:126 | whitespace added around a string does not change its trimmed form |
| `JsStrings.Utf16Length` | routes/items.js:373 | `length` lies between the number of characters and twice it, and equals the character count exactly when no character lies outside the Basic Multilingual Plane |
| `Json.FalsyValues` | routes/items.js:367 | `!req.body` and `!name` hold exactly for `null`, `false`, `0` and `""`; a JSON text cannot denote NaN, so these are all the falsy values a body can hold |
| `Json.Property` | routes/items.js:371 | destructuring `{ name }` yields a value only for an object that has that key, and then yields the key's value |
| `NameValidation.ValidateName` | routes/items.js:366-381 | a missing or falsy body gets 400 "Request body is missing"; a present body whose name is absent, not a string or shorter than 2 after trimming gets 400 "Name is required and must be at least 2 characters"; for any body whose `name` is a string, whatever its other keys, the name is accepted exactly when its trimmed UTF-16 length is at least 2; an accepted name is the trimmed string from the body, has no padding and has UTF-16 length at least 2 |
| `NameValidation.ValidateNameAccepts` | routes/categories.js:126-132 | any body whose `name` is the string `raw`, with or without other keys, is accepted exactly when `raw.trim().length >= 2`, and the accepted value is `raw.trim()` |
| `NameValidation.ExtraKeysIgnored` | routes/items.js:371-380 | a body with a key besides `name` gets the same verdict and the same stored name as the body holding `name` alone |
| `NameValidation.ValidateNameIdempotent` | routes/items.js:379 | an accepted name, sent again as the body, is accepted unchanged |
| `NameValidation.ValidateNameIgnoresPadding` | routes/categories.js:126-132 | names that differ only in surrounding whitespace get the same verdict and the same stored name |
| `NameValidation.OneAstralCharacterAccepted` | routes/items.js:373-377 | a one-character name outside the Basic Multilingual Plane passes the "at least 2 characters" check, because `length` counts UTF-16 code units |
| `NameValidation.BlankNameRejected` | routes/categories.js:126-130 | a name made only of spaces is rejected with the name message, although its raw length is 2 |
| `Documents.FirstMatch` | routes/auth.js:32 | `findOne` yields the first document in natural order that satisfies the filter, or nothing when none does |
| `Documents.IndexOf` | routes/items.js:450-452 | `findOne({ _id })` finds a document exactly when the id is stored, and then the first one with that id |
| `Documents.Lookup` | routes/categories.js:203-205 | the fields under an id are present exactly when the id is stored, and they belong to a stored document with that id |
| `Documents.LookupUnique` | routes/items.js:450-452 | under the unique `_id` index, looking up a stored document's id returns that document's fields |
| `Documents.InsertOne` | routes/items.js:495-498 | insertion fails exactly on a duplicate `_id`. Otherwise it appends the document, which then looks up to its fields, leaves every other id's lookup unchanged, adds exactly its id and keeps ids unique |
| `Documents.UpdateOne` | routes/items.js:552-555 | `matchedCount` is 1 exactly when the id is stored. A miss changes nothing. A match replaces exactly the document at the first position holding the id, so every other document keeps its place; length, id set, every other id's lookup and id uniqueness are kept |
| `Documents.DeleteOne` | routes/items.js:596-598 | `deletedCount` is 1 exactly when the id is stored. A miss changes nothing. A hit removes exactly the document at the first position holding the id, and the others keep their relative order; every other id's lookup is unchanged and, with unique ids, exactly that id goes |
| `Documents.DeleteKeepsIdsUnique` | routes/categories.js:349-351 | with unique ids, removing a document keeps ids unique and removes exactly its id from the id set |
| `Resources.List` | routes/items.js:408-415 | GET-all answers 200 with every stored document, in natural order, and changes nothing |
| `Resources.Get` | routes/items.js:444-459 | GET by id never changes the store. An invalid id gets 400 "Invalid ID format"; a valid id that is absent gets 404 "Item not found" / "Category not found". The answer is 200 exactly when the id is present, with a stored document of that id whose fields are that id's lookup |
| `Resources.Create` | routes/items.js:491-507 | a validation failure is answered by the validator with the store unchanged. The answer is 201 exactly when the name validates and the new id is unused; it returns `{ _id, name }` with the trimmed name, appends exactly that document and changes no other lookup. A clashing id gets 500 "Failed to create item" with the store unchanged |
| `Resources.Update` | routes/categories.js:297-318 | a bad name is answered before the id is checked. An invalid id gets 400 and an absent id 404, both with the store unchanged. The answer is 200 exactly when the name and the id are valid and the id is present; then the document at that id's position gets the trimmed name and every other document keeps its place and contents. Every position keeps its id, and the length and the id set are unchanged |
| `Resources.Delete` | routes/categories.js:343-361 | an invalid id gets 400 and an absent id 404, both with the store unchanged. The answer is 200 exactly when the id is valid and present; then the document at that id's first position goes and the others keep their relative order, so no other id's lookup changes, and with unique ids the target no longer looks up |
| `Resources.Serve` | routes/items.js:408-608 | every route of the router keeps `_id`s unique |
| `Resources.RunKeepsIdsUnique` | routes/categories.js:161-361 | no sequence of requests to the router stores two documents under one id |
| `Resources.CreateThenGet` | routes/categories.js:244-260 | after a 201 from POST, GET of the new id returns the document with the trimmed name |
| `Resources.UpdateThenGet` | routes/items.js:544-565 | after a 200 from PUT, GET of the same id returns the new name |
| `Resources.DeleteThenGet` | routes/items.js:590-608 | with unique ids, after a 200 from DELETE, GET of the same id answers 404 |
| `Resources.ValidationPrecedesIdCheck` | routes/items.js:544-548 | with an invalid name, PUT answers 400 with the same response and store whatever the id is |
| `Auth.FindByUsername` | routes/auth.js:79 | the username lookup finds a user exactly when one with that username is stored, and returns the first stored user, in natural order, with that name |
| `Auth.FindByUsernameUnique` | routes/auth.js:32 | with unique usernames, the lookup of a stored user's name returns that user |
| `Auth.Register` | routes/auth.js:26-49 | a taken username gets 400 "Username already exists" with the state unchanged. The answer is 201 "User created" exactly when the username is free and the new id is unused; then exactly one user is appended, holding `hash(password)` and not the password. A failed insert changes nothing. The session and cookie are untouched, and unique usernames, unique ids and sessions that name stored users are preserved |
| `Auth.Login` | routes/auth.js:73-96 | the users are never changed. For string credentials, every failure is the same 401 "Invalid credentials" with the state unchanged, and an unknown username is a failure. The answer is 200 exactly when the first user with that name accepts the password; then the session holds that first user's id and nothing else changes. The state invariant is preserved |
| `Auth.Logout` | routes/auth.js:109-115 | a destroy error gets 500 "Logout failed" and nothing changes; otherwise 200 "Logged out successfully", the session is gone, the `connect.sid` cookie is cleared and the users are untouched |
| `Auth.RequireAuth` | routes/protected.js:8-11 | the gate stops a request exactly when the session has no user id, with 401 "Unauthorized", and otherwise passes on the session's user id |
| `Auth.ProtectedHandler` | routes/protected.js:32-40 | an id with no stored user gets 404 "User not found"; a stored user gets 200 "Welcome <username>! This is protected content." |
| `Auth.ProtectedData` | routes/protected.js:26-44 | protected access never changes the users, the session or the cookie. It answers 401 with no session, 404 when the session's user is gone and 200 otherwise, greeting the user that `findOne` returns for the session's id |
| `Auth.GateHidesStore` | routes/protected.js:9 | without a session the answer is 401 whatever users are stored, so the handler's lookup never runs |
| `Auth.LoginFailuresIndistinguishable` | routes/auth.js:79-88 | with unique usernames, login with an unknown username and login with a known username and a wrong password produce identical responses, states and cookies |
| `Auth.LoginSucceeds` | routes/auth.js:85-92 | with unique usernames, the right password for a stored user answers 200 and binds the session to that user's id |
| `Auth.RegisterThenLogin` | routes/auth.js:38-92 | when the hasher is sound, registering a free username and then logging in with the same credentials succeeds and binds the session to the new user |
| `Auth.RegisterTwice` | routes/auth.js:31-45 | registering the same username twice gives 201 and then 400, and the second request changes nothing |
| `Auth.LogoutThenProtected` | routes/auth.js:110-113 | after a successful logout, the protected route answers 401 |
| `Auth.Serve` | routes/auth.js:26-115 | every auth route keeps the state invariant |
| `Auth.RunKeepsValid` | routes/auth.js:31-43 | no sequence of requests stores two users with one username or two users with one id, or leaves a session naming a missing user |
| `Auth.ValidSessionResolves` | routes/protected.js:36-40 | in every state these routes can reach, a session resolves to a stored user, so the 404 branch is reachable only through changes made outside these routes |
| `Auth.SessionLifecycle` | routes/auth.js:26-115 | for a sound hasher and a new username: register gets 201, login 200, protected access 200 with that user's greeting, logout 200 with the cookie cleared, and protected access then 401 |
| `Auth.AliceScenario` | routes/protected.js:26-44 | the same lifecycle on an empty store for `alice`/`S3cret!`, with the greeting "Welcome alice! This is protected content." |
| `Auth.WelcomeAlice` | routes/protected.js:40 | the greeting template applied to `alice` |

## Left out

- `app.js`: Express, CORS and Swagger wiring, the MongoDB connection, the shared `db` handle and the redirect. The live `app.js` does not mount the auth and protected routers. It also does not export the `getDb`, `hashPassword` and `comparePassword` that `routes/auth.js` imports. The handlers are modelled as written.
- `models/db.js`: bcrypt with 10 salt rounds and a random salt is replaced by the abstract `Hasher`. Its `hash` is a function, so the model does not capture that two hashes of one password differ. Constant-time comparison is not modelled.
- `models/user.js`: it refers to an undefined `userSchema` and a misspelt `bccrypt`, so it has no behaviour to model.
- `ObjectId.isValid` and `new ObjectId(s)`: their internals are not modelled. So, for example, upper-case and lower-case hex spellings of one id are related only through `IdRules.parse`.
- The race between the username check and the insert in register: it needs concurrent requests, and the model is sequential.
- The 500 catch-all paths caused by database, driver or bcrypt exceptions are not modelled. The exception is a duplicate generated `_id`, which is modelled through the unique `_id` index. This leaves out hashing a missing or non-string password, which throws inside bcrypt and answers 500.
- Non-string usernames: auth requests carry string credentials only. In the source a missing username is read as `undefined`, which the driver sends as `null`. `findOne({ username: null })` matches users whose `username` is null or missing. So the first such register, given a string password, finds nobody, stores a user with `username: null` and answers 201. Every later one finds that user and answers 400 "Username already exists". At login a number matches no stored string, and an object such as `{ "$ne": null }` acts as a query operator and matches the first stored user, whose password is then compared.
- Auth.Login: exceptions from `comparePassword` are not modelled, because the model's credentials are strings. In the source, a known username with a missing or non-string password reaches `bcrypt.compare`, which rejects, and the catch answers 500 with the exception's message. An unknown username answers 401 before the comparison. So a body without a password tells a client whether the username exists, and the indistinguishability stated by `Auth.Login` and `Auth.LoginFailuresIndistinguishable` holds only for string passwords.
- Auth.Register: the body of its 500 answer is the driver exception's message, modelled only as the opaque `ExceptionMessage`.
- Logout: when `destroy` reports an error, the model keeps the session. This assumes the session store still holds it, which the source does not determine.
- Timestamps (`createdAt`, `created_at`) are not modelled. POST stores `created_at` with each item or category, and GET and GET-all return it in the stored documents. The model's documents carry only `_id` and `name`.
- Cookies beyond the cleared `connect.sid`: express-session issues the session cookie on login, and that cookie encoding is not modelled. Session expiry is not modelled either: the source configures no TTL.
- Names holding an unpaired UTF-16 surrogate, such as the JSON string `"\ud800x"`, cannot be represented: a Dafny `char` is a Unicode scalar value. In the source such a name counts one code unit per surrogate in `length` and is accepted like any other two-unit name.
- The "natural order" of a collection is taken to be insertion order.

=== FILE: auth.dfy ===
/**
  Session-based authentication: the register, login and logout handlers of
  routes/auth.js and the `requireAuth`-gated handler of routes/protected.js,
  as transitions over the user collection and the requesting client's
  session.
 */
module Auth {
  import opened Wrappers
  import opened Documents
  import opened Http
  import opened Passwords

  datatype User = User(username: string, passwordHash: Digest)

  type Users = seq<Doc<User>>

  /** The `users` collection and the `userId` of the client's session
      (`None` when the session has none). */
  datatype AuthState = AuthState(users: Users, session: Option<ObjectId>)

  /** What the response instructs the client to do with its session cookie. */
  datatype Cookie = KeepCookie | ClearCookie(name: string)

  datatype Step = Step(response: Response, state: AuthState, cookie: Cookie)

  const SessionCookie := "connect.sid"

  const UsernameTaken := Response(400, Text("Username already exists"))
  const UserCreated := Response(201, Text("User created"))
  const InvalidCredentials := Response(401, Text("Invalid credentials"))
  const LoggedIn := Response(200, Text("Logged in successfully"))
  const LoggedOut := Response(200, Text("Logged out successfully"))
  const LogoutFailed := Response(500, Text("Logout failed"))
  const Unauthorized := Response(401, Text("Unauthorized"))
  const UserNotFound := Response(404, Text("User not found"))

  function Welcome(username: string): string {
    "Welcome " + username + "! This is protected content."
  }

  function Usernames(users: Users): set<string> {
    set i | 0 <= i < |users| :: users[i].fields.username
  }

  predicate UniqueUsernames(users: Users) {
    forall i, j :: 0 <= i < j < |users| ==> users[i].fields.username != users[j].fields.username
  }

  /** What every reachable state satisfies: ids and usernames are unique,
      and a session names a stored user. */
  predicate Valid(s: AuthState) {
    && UniqueIds(s.users)
    && UniqueUsernames(s.users)
    && (s.session.Some? ==> s.session.value in Ids(s.users))
  }

  /** `findOne({ username })`. */
  function FindByUsername(users: Users, username: string): (r: Option<Doc<User>>)
    ensures r.Some? <==> username in Usernames(users)
    ensures r.Some? ==> r.value in users && r.value.fields.username == username
    ensures r.Some? ==>
      exists i :: 0 <= i < |users| && r.value == users[i]
                  && forall k :: 0 <= k < i ==> users[k].fields.username != username
  {
    match FirstMatch(users, (d: Doc<User>) => d.fields.username == username)
    case Some(i) => Some(users[i])
    case None =>
      assert username !in Usernames(users);
      None
  }

  /** With unique usernames, the lookup finds the one user of that name. */
  lemma {:induction false} FindByUsernameUnique(users: Users, i: int)
    requires UniqueUsernames(users) && 0 <= i < |users|
    ensures FindByUsername(users, users[i].fields.username) == Some(users[i])
  {
  }

  /** POST /register. `newId` is the `_id` the driver generates for the new
      user; a clash with a stored id is the driver's duplicate-key error. */
  function Register(h: Hasher, s: AuthState, username: string, password: string, newId: ObjectId): (r: Step)
    ensures r.cookie == KeepCookie && r.state.session == s.session
    ensures username in Usernames(s.users) ==> r.response == UsernameTaken && r.state == s
    ensures username !in Usernames(s.users) && newId in Ids(s.users) ==>
      r.response == Response(500, ExceptionMessage) && r.state == s
    ensures r.response == UserCreated <==> username !in Usernames(s.users) && newId !in Ids(s.users)
    ensures r.response == UserCreated ==>
      r.state.users == s.users + [Doc(newId, User(username, h.hash(password)))]
    ensures r.response != UserCreated ==> r.state == s
    ensures Valid(s) ==> Valid(r.state)
  {
    if FindByUsername(s.users, username).Some? then Step(UsernameTaken, s, KeepCookie)
    else
      var user := Doc(newId, User(username, h.hash(password)));
      match InsertOne(s.users, user)
      case None => Step(Response(500, ExceptionMessage), s, KeepCookie)
      case Some(users') =>
        assert Usernames(users') == Usernames(s.users) + {username} by {
          assert users'[|s.users|] == user;
          forall x | x in Usernames(s.users) ensures x in Usernames(users') {
            var j :| 0 <= j < |s.users| && s.users[j].fields.username == x;
            assert users'[j].fields.username == x;
          }
        }
        Step(UserCreated, AuthState(users', s.session), KeepCookie)
  }

  /** POST /login. Both failures give the same response and leave the state
      alone; success binds the session to the user's id. */
  function Login(h: Hasher, s: AuthState, username: string, password: string): (r: Step)
    ensures r.cookie == KeepCookie && r.state.users == s.users
    ensures r.response == LoggedIn || (r.response == InvalidCredentials && r.state == s)
    ensures username !in Usernames(s.users) ==> r.response == InvalidCredentials
    ensures r.response == LoggedIn <==>
      exists i :: 0 <= i < |s.users| && FindByUsername(s.users, username) == Some(s.users[i])
                  && h.compare(password, s.users[i].fields.passwordHash)
    ensures r.response == LoggedIn ==>
      r.state == AuthState(s.users, Some(FindByUsername(s.users, username).value.id))
    ensures Valid(s) ==> Valid(r.state)
  {
    match FindByUsername(s.users, username)
    case None => Step(InvalidCredentials, s, KeepCookie)
    case Some(user) =>
      if !h.compare(password, user.fields.passwordHash) then Step(InvalidCredentials, s, KeepCookie)
      else
        var i :| 0 <= i < |s.users| && s.users[i] == user;
        assert user.id in Ids(s.users);
        Step(LoggedIn, AuthState(s.users, Some(user.id)), KeepCookie)
  }

  /** POST /logout. `destroyError` is the error `req.session.destroy` may
      report; the session store is then assumed to still hold the session. */
  function Logout(s: AuthState, destroyError: bool): (r: Step)
    ensures r.state.users == s.users
    ensures destroyError ==> r == Step(LogoutFailed, s, KeepCookie)
    ensures !destroyError ==> r.response == LoggedOut && r.state.session.None?
    ensures !destroyError ==> r.cookie == ClearCookie(SessionCookie)
    ensures Valid(s) ==> Valid(r.state)
  {
    if destroyError then Step(LogoutFailed, s, KeepCookie)
    else Step(LoggedOut, AuthState(s.users, None), ClearCookie(SessionCookie))
  }

  /** The `requireAuth` middleware: the user id to hand to the handler, or
      the response that ends the request. A session's user id is an
      `ObjectId` string, which is never empty and so never falsy: the
      `!req.session.userId` test reduces to whether the session holds one. */
  function RequireAuth(s: AuthState): (r: Result<ObjectId, Response>)
    ensures r.Failure? <==> s.session.None?
    ensures r.Failure? ==> r.error == Unauthorized
    ensures r.Success? ==> s.session == Some(r.value)
  {
    match s.session
    case None => Failure(Unauthorized)
    case Some(userId) => Success(userId)
  }

  /** The handler of GET /data, for the user id the gate let through. */
  function ProtectedHandler(users: Users, userId: ObjectId): (r: Response)
    ensures userId !in Ids(users) ==> r == UserNotFound
    ensures userId in Ids(users) ==> r == Response(200, Text(Welcome(Lookup(users, userId).value.username)))
  {
    match Lookup(users, userId)
    case None => UserNotFound
    case Some(user) => Response(200, Text(Welcome(user.username)))
  }

  /** GET /data: the gate, then the handler. It reads but never writes. */
  function ProtectedData(s: AuthState): (r: Step)
    ensures r.state == s && r.cookie == KeepCookie
    ensures s.session.None? ==> r.response == Unauthorized
    ensures s.session.Some? && s.session.value !in Ids(s.users) ==> r.response == UserNotFound
    ensures s.session.Some? && s.session.value in Ids(s.users) ==>
      exists i :: IndexOf(s.users, s.session.value) == Some(i)
                  && r.response == Response(200, Text(Welcome(s.users[i].fields.username)))
  {
    match RequireAuth(s)
    case Failure(response) => Step(response, s, KeepCookie)
    case Success(userId) => Step(ProtectedHandler(s.users, userId), s, KeepCookie)
  }

  /** Without a session the handler never runs: the answer does not depend
      on the stored users at all. */
  lemma {:induction false} GateHidesStore(s1: AuthState, s2: AuthState)
    requires s1.session.None? && s2.session.None?
    ensures ProtectedData(s1).response == ProtectedData(s2).response == Unauthorized
  {
  }

  /** An unknown username and a wrong password produce the same outcome,
      so a client cannot tell which usernames exist. */
  lemma {:induction false} LoginFailuresIndistinguishable(h: Hasher, s: AuthState, unknown: string, p1: string, i: int, p2: string)
    requires unknown !in Usernames(s.users)
    requires UniqueUsernames(s.users) && 0 <= i < |s.users|
    requires !h.compare(p2, s.users[i].fields.passwordHash)
    ensures Login(h, s, unknown, p1) == Login(h, s, s.users[i].fields.username, p2)
  {
  }

  /** With unique usernames, the right password for a stored user logs that
      user in. */
  lemma {:induction false} LoginSucceeds(h: Hasher, s: AuthState, i: int, password: string)
    requires UniqueUsernames(s.users) && 0 <= i < |s.users|
    requires h.compare(password, s.users[i].fields.passwordHash)
    ensures Login(h, s, s.users[i].fields.username, password)
      == Step(LoggedIn, AuthState(s.users, Some(s.users[i].id)), KeepCookie)
  {
  }

  /** Registering and then logging in with the same credentials succeeds and
      binds the session to the new user. */
  lemma {:induction false} RegisterThenLogin(h: Hasher, s: AuthState, username: string, password: string, newId: ObjectId)
    requires Sound(h)
    requires username !in Usernames(s.users) && newId !in Ids(s.users)
    ensures Register(h, s, username, password, newId).response == UserCreated
    ensures Login(h, Register(h, s, username, password, newId).state, username, password).response == LoggedIn
    ensures Login(h, Register(h, s, username, password, newId).state, username, password).state.session == Some(newId)
  {
  }

  /** A second registration of a taken username is refused and changes nothing. */
  lemma {:induction false} RegisterTwice(h: Hasher, s: AuthState, username: string, p1: string, p2: string, id1: ObjectId, id2: ObjectId)
    requires username !in Usernames(s.users) && id1 !in Ids(s.users)
    ensures var s1 := Register(h, s, username, p1, id1).state;
      && Register(h, s, username, p1, id1).response == UserCreated
      && Register(h, s1, username, p2, id2) == Step(UsernameTaken, s1, KeepCookie)
  {
  }

  /** After a successful logout the gate turns the next request away. */
  lemma {:induction false} LogoutThenProtected(s: AuthState)
    ensures ProtectedData(Logout(s, false).state).response == Unauthorized
  {
  }

  /** A request from the client. */
  datatype Request =
    | RegisterRequest(username: string, password: string, newId: ObjectId)
    | LoginRequest(username: string, password: string)
    | LogoutRequest(destroyError: bool)
    | DataRequest

  function Serve(h: Hasher, s: AuthState, req: Request): (r: Step)
    ensures Valid(s) ==> Valid(r.state)
  {
    match req
    case RegisterRequest(username, password, newId) => Register(h, s, username, password, newId)
    case LoginRequest(username, password) => Login(h, s, username, password)
    case LogoutRequest(destroyError) => Logout(s, destroyError)
    case DataRequest => ProtectedData(s)
  }

  /** The state after serving `reqs` one after another. */
  function Run(h: Hasher, s: AuthState, reqs: seq<Request>): AuthState
    decreases |reqs|
  {
    if reqs == [] then s else Run(h, Serve(h, s, reqs[0]).state, reqs[1..])
  }

  /** Sequential requests never store two users with one username, and a
      session always names a stored user. */
  lemma {:induction false} RunKeepsValid(h: Hasher, s: AuthState, reqs: seq<Request>)
    requires Valid(s)
    ensures Valid(Run(h, s, reqs))
    decreases |reqs|
  {
    if reqs != [] {
      RunKeepsValid(h, Serve(h, s, reqs[0]).state, reqs[1..]);
    }
  }

  /** In a reachable state the protected route never answers 404: users are
      never removed by these routes, so a session always resolves. */
  lemma {:induction false} ValidSessionResolves(s: AuthState)
    requires Valid(s) && s.session.Some?
    ensures ProtectedData(s).response.status == 200
  {
  }

  /** The whole session lifecycle for a new user: register, log in, read
      the protected data, log out, and be turned away. */
  lemma {:induction false} SessionLifecycle(h: Hasher, s: AuthState, username: string, password: string, newId: ObjectId)
    requires Sound(h)
    requires username !in Usernames(s.users) && newId !in Ids(s.users)
    ensures var r1 := Register(h, s, username, password, newId);
      var r2 := Login(h, r1.state, username, password);
      var r3 := ProtectedData(r2.state);
      var r4 := Logout(r3.state, false);
      var r5 := ProtectedData(r4.state);
      && r1.response == UserCreated
      && r2.response == LoggedIn
      && r3.response == Response(200, Text(Welcome(username)))
      && r4.response == LoggedOut && r4.cookie == ClearCookie(SessionCookie)
      && r5.response == Unauthorized
  {
  }

  /** The lifecycle played by `alice` on an empty store. */
  lemma {:induction false} AliceScenario(h: Hasher, aliceId: ObjectId)
    requires Sound(h)
    ensures var s0 := AuthState([], None);
      var r1 := Register(h, s0, "alice", "S3cret!", aliceId);
      var r2 := Login(h, r1.state, "alice", "S3cret!");
      var r3 := ProtectedData(r2.state);
      var r4 := Logout(r3.state, false);
      var r5 := ProtectedData(r4.state);
      && r1.response == UserCreated
      && r2.response == LoggedIn
      && r3.response == Response(200, Text("Welcome alice! This is protected content."))
      && r4.response == LoggedOut && r4.cookie == ClearCookie("connect.sid")
      && r5.response == Unauthorized
  {
    SessionLifecycle(h, AuthState([], None), "alice", "S3cret!", aliceId);
    WelcomeAlice();
  }

  lemma {:induction false} WelcomeAlice()
    ensures Welcome("alice") == "Welcome alice! This is protected content."
  {
    assert "Welcome " + "alice" == "Welcome alice";
    assert "Welcome alice" + "! This is protected content." == "Welcome alice! This is protected content.";
  }
}

=== FILE: documents.dfy ===
/**
  A document collection as the route handlers see it: a sequence of
  documents in natural order, each carrying an `_id`, with the store-side
  primitives the handlers call (`findOne`, `insertOne`, `updateOne`,
  `deleteOne`).
 */
module Documents {
  import opened Wrappers

  /** A hexadecimal digit as `ObjectId.toString` writes it. */
  predicate IsHexDigit(c: char) {
    '0' <= c <= '9' || 'a' <= c <= 'f'
  }

  /** The canonical form of an ObjectId: the 24 lower-case hexadecimal
      digits of its twelve bytes. It is never the empty string, so a session
      holding one is truthy. */
  type ObjectId = s: string | |s| == 24 && forall i :: 0 <= i < |s| ==> IsHexDigit(s[i])
    witness "000000000000000000000000"

  /** `ObjectId.isValid` and `new ObjectId(s)`, whose internals are not
      part of this model. */
  datatype IdRules = IdRules(isValid: string -> bool, parse: string -> ObjectId)

  datatype Doc<T> = Doc(id: ObjectId, fields: T)

  /** Position of the first element of `s` satisfying `p`: what `findOne`
      returns when no sort order is given. */
  function FirstMatch<T>(s: seq<T>, p: T -> bool): (r: Option<nat>)
    ensures r.Some? ==> r.value < |s| && p(s[r.value])
    ensures r.Some? ==> forall k :: 0 <= k < r.value ==> !p(s[k])
    ensures r.None? ==> forall k :: 0 <= k < |s| ==> !p(s[k])
  {
    if |s| == 0 then None
    else if p(s[0]) then Some(0)
    else
      match FirstMatch(s[1..], p)
      case None => None
      case Some(k) => Some(k + 1)
  }

  function Ids<T>(docs: seq<Doc<T>>): set<ObjectId> {
    set i | 0 <= i < |docs| :: docs[i].id
  }

  /** The `_id` index is unique. */
  predicate UniqueIds<T>(docs: seq<Doc<T>>) {
    forall i, j :: 0 <= i < j < |docs| ==> docs[i].id != docs[j].id
  }

  /** `findOne({ _id: id })`, by position. */
  function IndexOf<T>(docs: seq<Doc<T>>, id: ObjectId): (r: Option<nat>)
    ensures r.Some? <==> id in Ids(docs)
    ensures r.Some? ==> r.value < |docs| && docs[r.value].id == id
    ensures r.Some? ==> forall k :: 0 <= k < r.value ==> docs[k].id != id
  {
    FirstMatch(docs, (d: Doc<T>) => d.id == id)
  }

  /** The fields stored under `id`, or `None`: the collection read as a map. */
  function Lookup<T>(docs: seq<Doc<T>>, id: ObjectId): (r: Option<T>)
    ensures r.Some? <==> id in Ids(docs)
    ensures r.Some? ==> Doc(id, r.value) in docs
  {
    match IndexOf(docs, id)
    case Some(i) => Some(docs[i].fields)
    case None => None
  }

  /** Under a unique `_id` index, every stored document is what its id looks up. */
  lemma {:induction false} LookupUnique<T>(docs: seq<Doc<T>>, i: int)
    requires UniqueIds(docs) && 0 <= i < |docs|
    ensures Lookup(docs, docs[i].id) == Some(docs[i].fields)
  {
  }

  /** `insertOne(d)`: `None` is the duplicate-key error of the `_id` index. */
  function InsertOne<T>(docs: seq<Doc<T>>, d: Doc<T>): (r: Option<seq<Doc<T>>>)
    ensures r.Some? <==> d.id !in Ids(docs)
    ensures r.Some? ==> r.value == docs + [d]
    ensures r.Some? ==> Lookup(r.value, d.id) == Some(d.fields)
    ensures r.Some? ==> forall k :: k != d.id ==> Lookup(r.value, k) == Lookup(docs, k)
    ensures r.Some? ==> Ids(r.value) == Ids(docs) + {d.id}
    ensures r.Some? && UniqueIds(docs) ==> UniqueIds(r.value)
  {
    if d.id in Ids(docs) then None
    else
      var docs' := docs + [d];
      assert docs'[|docs|] == d;
      assert forall k :: k != d.id ==> IndexOf(docs', k) == IndexOf(docs, k) by {
        forall k | k != d.id ensures IndexOf(docs', k) == IndexOf(docs, k) {
          FirstMatchAppend(docs, d, (x: Doc<T>) => x.id == k);
        }
      }
      FirstMatchAppend(docs, d, (x: Doc<T>) => x.id == d.id);
      assert Ids(docs') == Ids(docs) + {d.id} by {
        forall x | x in Ids(docs) ensures x in Ids(docs') {
          var j :| 0 <= j < |docs| && docs[j].id == x;
          assert docs'[j].id == x;
        }
      }
      Some(docs')
  }

  /** Appending an element does not move the first match of the prefix. */
  lemma {:induction false} FirstMatchAppend<T>(s: seq<T>, x: T, p: T -> bool)
    ensures FirstMatch(s + [x], p) ==
      (if FirstMatch(s, p).Some? then FirstMatch(s, p) else if p(x) then Some(|s|) else None)
  {
    var t := s + [x];
    assert forall k :: 0 <= k < |s| ==> t[k] == s[k];
    assert t[|s|] == x;
  }

  /** `updateOne({ _id: id }, { $set: v })`: the new collection and whether a
      document matched. */
  function UpdateOne<T>(docs: seq<Doc<T>>, id: ObjectId, v: T): (r: (seq<Doc<T>>, bool))
    ensures r.1 <==> id in Ids(docs)
    ensures !r.1 ==> r.0 == docs
    ensures |r.0| == |docs| && Ids(r.0) == Ids(docs)
    ensures r.1 ==> Lookup(r.0, id) == Some(v)
    ensures forall k :: k != id ==> Lookup(r.0, k) == Lookup(docs, k)
    ensures UniqueIds(docs) ==> UniqueIds(r.0)
    ensures r.1 ==> exists i :: IndexOf(docs, id) == Some(i) && r.0 == docs[i := Doc(id, v)]
  {
    match IndexOf(docs, id)
    case None => (docs, false)
    case Some(i) =>
      var docs' := docs[i := Doc(id, v)];
      assert forall k :: 0 <= k < |docs| ==> docs'[k].id == docs[k].id;
      assert Ids(docs') == Ids(docs);
      (docs', true)
  }

  /** `deleteOne({ _id: id })`: the new collection and whether a document
      was removed. */
  function DeleteOne<T>(docs: seq<Doc<T>>, id: ObjectId): (r: (seq<Doc<T>>, bool))
    ensures r.1 <==> id in Ids(docs)
    ensures !r.1 ==> r.0 == docs
    ensures r.1 ==> |r.0| == |docs| - 1
    ensures forall k :: k != id ==> Lookup(r.0, k) == Lookup(docs, k)
    ensures UniqueIds(docs) ==> UniqueIds(r.0)
    ensures UniqueIds(docs) ==> Ids(r.0) == Ids(docs) - {id}
    ensures r.1 ==> exists i :: IndexOf(docs, id) == Some(i) && r.0 == docs[..i] + docs[i + 1..]
  {
    match IndexOf(docs, id)
    case None => (docs, false)
    case Some(i) =>
      DeleteKeepsOthers(docs, i);
      DeleteKeepsIdsUnique(docs, i);
      (RemoveAt(docs, i), true)
  }

  /** `s` without position `i`: the others keep their order and every
      later element moves one place down. */
  function RemoveAt<T>(s: seq<T>, i: nat): (r: seq<T>)
    requires i < |s|
    ensures |r| == |s| - 1
    ensures forall k :: 0 <= k < i ==> r[k] == s[k]
    ensures forall k :: i <= k < |r| ==> r[k] == s[k + 1]
  {
    s[..i] + s[i + 1..]
  }

  lemma {:induction false} DeleteKeepsOthers<T>(docs: seq<Doc<T>>, i: nat)
    requires i < |docs|
    ensures forall k :: k != docs[i].id ==> Lookup(RemoveAt(docs, i), k) == Lookup(docs, k)
  {
    var docs' := RemoveAt(docs, i);
    forall k | k != docs[i].id ensures Lookup(docs', k) == Lookup(docs, k) {
      match IndexOf(docs, k)
      case None =>
        assert IndexOf(docs', k).None?;
      case Some(j) =>
        var j' := if j < i then j else j - 1;
        assert docs'[j'] == docs[j];
        assert IndexOf(docs', k) == Some(j');
    }
  }

  lemma {:induction false} DeleteKeepsIdsUnique<T>(docs: seq<Doc<T>>, i: nat)
    requires i < |docs|
    ensures UniqueIds(docs) ==> UniqueIds(RemoveAt(docs, i))
    ensures UniqueIds(docs) ==> Ids(RemoveAt(docs, i)) == Ids(docs) - {docs[i].id}
  {
    var docs' := RemoveAt(docs, i);
    forall x | x in Ids(docs) - {docs[i].id} ensures x in Ids(docs') {
      var j :| 0 <= j < |docs| && docs[j].id == x;
      if j < i { assert docs'[j].id == x; } else { assert docs'[j - 1].id == x; }
    }
  }
}

=== FILE: http.dfy ===
/** Responses as the handlers write them: a status and a body. */
module Http {
  import opened Documents

  datatype Body =
    | Text(text: string)                   // res.send(string)
    | ExceptionMessage                     // res.send(error.message) for a store or driver exception
    | Error(error: string)                 // res.json({ error })
    | Message(message: string)             // res.json({ message })
    | Created(id: ObjectId, name: string)  // res.json({ _id, name })
    | Document(doc: Doc<string>)           // res.json(document)
    | DocumentList(docs: seq<Doc<string>>) // res.json(array of documents)

  datatype Response = Response(status: nat, body: Body)
}

=== FILE: js_strings.dfy ===
/**
  The two JavaScript string primitives the request validators rely on:
  `String.prototype.trim` and the `length` property, which counts UTF-16
  code units rather than characters.
 */
module JsStrings {

  /** The code points `trim` removes: WhiteSpace (section 12.2 of ECMA-262,
      including every space separator of Unicode category Zs) and
      LineTerminator (section 12.3 of ECMA-262). */
  predicate IsTrimmable(c: char) {
    var n := c as int;
    || n == 0x09 || n == 0x0A || n == 0x0B || n == 0x0C || n == 0x0D
    || n == 0x20 || n == 0xA0 || n == 0x1680
    || (0x2000 <= n <= 0x200A)
    || n == 0x2028 || n == 0x2029 || n == 0x202F || n == 0x205F
    || n == 0x3000 || n == 0xFEFF
  }

  predicate AllTrimmable(s: string) {
    forall k :: 0 <= k < |s| ==> IsTrimmable(s[k])
  }

  /** Neither end of `s` is trimmable. */
  predicate Stripped(s: string) {
    s == [] || (!IsTrimmable(s[0]) && !IsTrimmable(s[|s| - 1]))
  }

  /** `s[i..j]` is what is left of `s` once the trimmable padding on both
      sides is removed: the reference definition `Trim` is proved against. */
  predicate Strips(s: string, i: int, j: int) {
    && 0 <= i <= j <= |s|
    && AllTrimmable(s[..i])
    && AllTrimmable(s[j..])
    && Stripped(s[i..j])
  }

  /** Number of trimmable characters at the start of `s`. */
  function LeadingPadding(s: string): (n: nat)
    ensures n <= |s|
    ensures AllTrimmable(s[..n])
    ensures n < |s| ==> !IsTrimmable(s[n])
  {
    if |s| == 0 || !IsTrimmable(s[0]) then 0
    else
      var m := LeadingPadding(s[1..]);
      assert forall k :: 1 <= k < 1 + m ==> s[k] == s[1..][..m][k - 1];
      1 + m
  }

  /** Number of trimmable characters at the end of `s`. */
  function TrailingPadding(s: string): (n: nat)
    ensures n <= |s|
    ensures AllTrimmable(s[|s| - n..])
    ensures n < |s| ==> !IsTrimmable(s[|s| - n - 1])
  {
    if |s| == 0 || !IsTrimmable(s[|s| - 1]) then 0
    else
      var t := s[..|s| - 1];
      var m := TrailingPadding(t);
      assert forall k :: |s| - 1 - m <= k < |s| - 1 ==> s[k] == t[|t| - m..][k - (|t| - m)];
      1 + m
  }

  /** `String.prototype.trim`. */
  function Trim(s: string): (r: string)
    ensures |r| <= |s|
    ensures Stripped(r)
    ensures r == [] <==> AllTrimmable(s)
  {
    var i := LeadingPadding(s);
    var t := s[i..];
    var n := TrailingPadding(t);
    assert AllTrimmable(s) ==> i == |s|;
    assert i < |s| ==> n < |t| && !IsTrimmable(t[0]);
    assert (i == |s|) ==> AllTrimmable(s) by {
      if i == |s| { assert s[..i] == s; }
    }
    t[..|t| - n]
  }

  /** Where `Trim` cuts `s`. */
  lemma {:induction false} TrimBounds(s: string)
    ensures Strips(s, LeadingPadding(s), LeadingPadding(s) + |Trim(s)|)
    ensures Trim(s) == s[LeadingPadding(s)..LeadingPadding(s) + |Trim(s)|]
  {
    var i := LeadingPadding(s);
    var t := s[i..];
    var n := TrailingPadding(t);
    var j := i + |t| - n;
    assert Trim(s) == s[i..j];
    assert s[j..] == t[|t| - n..];
  }

  lemma {:induction false} PrefixPadding(s: string, n: int)
    requires 0 <= n <= |s| && AllTrimmable(s[..n])
    ensures forall k :: 0 <= k < n ==> IsTrimmable(s[k])
  {
    forall k | 0 <= k < n ensures IsTrimmable(s[k]) {
      assert s[..n][k] == s[k];
    }
  }

  lemma {:induction false} SuffixPadding(s: string, n: int)
    requires 0 <= n <= |s| && AllTrimmable(s[n..])
    ensures forall k :: n <= k < |s| ==> IsTrimmable(s[k])
  {
    forall k | n <= k < |s| ensures IsTrimmable(s[k]) {
      assert s[n..][k - n] == s[k];
    }
  }

  lemma {:induction false} ConcatPadding(x: string, y: string)
    requires AllTrimmable(x) && AllTrimmable(y)
    ensures AllTrimmable(x + y)
  {
    forall k | 0 <= k < |x + y| ensures IsTrimmable((x + y)[k]) {
      if k >= |x| { assert (x + y)[k] == y[k - |x|]; }
    }
  }

  /** Every way of stripping padding from both ends of `s` leaves exactly
      `Trim(s)`: the characterisation of `trim`. */
  lemma {:induction false} TrimUnique(s: string, i: int, j: int)
    requires Strips(s, i, j)
    ensures Trim(s) == s[i..j]
  {
    TrimBounds(s);
    var i0 := LeadingPadding(s);
    var j0 := i0 + |Trim(s)|;
    PrefixPadding(s, i);
    SuffixPadding(s, j);
    PrefixPadding(s, i0);
    SuffixPadding(s, j0);
    if i < j {
      // s[i] is not padding, so the leading padding stops exactly at i.
      assert s[i..j][0] == s[i];
      assert i0 == i;
      assert Trim(s) != [];
      assert Trim(s)[|Trim(s)| - 1] == s[j0 - 1];
      assert s[i..j][j - i - 1] == s[j - 1];
      assert j0 == j;
    } else {
      // Nothing is left: every character of s is padding.
      assert AllTrimmable(s);
    }
  }

  /** Trimming twice is trimming once. */
  lemma {:induction false} TrimIdempotent(s: string)
    ensures Trim(Trim(s)) == Trim(s)
  {
    var r := Trim(s);
    assert r[..0] == [] && r[|r|..] == [] && r[0..|r|] == r;
    TrimUnique(r, 0, |r|);
  }

  /** Padding added around `s` shifts a stripping of `s` without changing it. */
  lemma {:induction false} StripsPadded(a: string, s: string, b: string, i: int, j: int)
    requires AllTrimmable(a) && AllTrimmable(b) && Strips(s, i, j)
    ensures Strips(a + s + b, |a| + i, |a| + j)
    ensures (a + s + b)[|a| + i..|a| + j] == s[i..j]
  {
    var t := a + s + b;
    assert t[..|a| + i] == a + s[..i];
    ConcatPadding(a, s[..i]);
    assert t[|a| + j..] == s[j..] + b;
    ConcatPadding(s[j..], b);
    assert t[|a| + i..|a| + j] == s[i..j];
  }

  lemma {:induction false} TrimOfPadded(a: string, s: string, b: string, i: int, j: int)
    requires AllTrimmable(a) && AllTrimmable(b) && Strips(s, i, j)
    ensures Trim(a + s + b) == s[i..j]
  {
    StripsPadded(a, s, b, i, j);
    TrimUnique(a + s + b, |a| + i, |a| + j);
  }

  /** Padding added around a string never changes what `trim` returns. */
  lemma {:induction false} TrimIgnoresPadding(a: string, s: string, b: string)
    requires AllTrimmable(a) && AllTrimmable(b)
    ensures Trim(a + s + b) == Trim(s)
  {
    TrimBounds(s);
    TrimOfPadded(a, s, b, LeadingPadding(s), LeadingPadding(s) + |Trim(s)|);
  }

  /** The value of `s.length`: characters outside the Basic Multilingual
      Plane occupy two UTF-16 code units. */
  function Utf16Length(s: string): (n: nat)
    ensures |s| <= n <= 2 * |s|
    ensures n == |s| <==> forall k :: 0 <= k < |s| ==> s[k] as int <= 0xFFFF
  {
    if s == [] then 0
    else
      assert forall k :: 1 <= k < |s| ==> s[k] == s[1..][k - 1];
      (if s[0] as int > 0xFFFF then 2 else 1) + Utf16Length(s[1..])
  }
}

=== FILE: json.dfy ===
/** The JSON values `express.json()` can place in `req.body`, with the
    JavaScript truthiness the handlers test them by. */
module Json {
  import opened Wrappers

  datatype Value =
    | Null
    | Bool(b: bool)
    | Number(n: real)
    | Str(s: string)
    | Array(elems: seq<Value>)
    | Object(fields: map<string, Value>)

  /** JavaScript's `!!v` for a parsed JSON value. A JSON text cannot denote
      NaN, so the falsy numbers are exactly the zeros. */
  predicate Truthy(v: Value) {
    match v
    case Null => false
    case Bool(b) => b
    case Number(n) => n != 0.0
    case Str(s) => s != ""
    case Array(_) => true
    case Object(_) => true
  }

  /** The falsy JSON values are exactly `null`, `false`, `0` and `""`. */
  lemma {:induction false} FalsyValues(v: Value)
    ensures !Truthy(v) <==> v == Null || v == Bool(false) || v == Number(0.0) || v == Str("")
  {
  }

  /** The property `v[key]` as destructuring reads it; `None` is `undefined`.
      Only objects carry own properties, and no prototype in play defines
      the keys read here. */
  function Property(v: Value, key: string): (r: Option<Value>)
    ensures r.Some? <==> v.Object? && key in v.fields
    ensures r.Some? ==> r.value == v.fields[key]
  {
    match v
    case Object(fields) => if key in fields then Some(fields[key]) else None
    case _ => None
  }
}

=== FILE: name_validation.dfy ===
/** The `validateName` middleware shared by the item and category routes
    (routes/items.js and routes/categories.js). */
module NameValidation {
  import opened Wrappers
  import opened Json
  import opened JsStrings
  import opened Http

  const BodyMissing := "Request body is missing"
  const NameInvalid := "Name is required and must be at least 2 characters"

  /** The shortest `name.trim().length` the middleware lets through. */
  const MinNameLength := 2

  /** The middleware: `Success(name)` is `next()` with `req.body.name`
      replaced by `name`; `Failure(response)` ends the request. */
  function ValidateName(body: Option<Value>): (r: Result<string, Response>)
    ensures r.Failure? ==> r.error.status == 400
    ensures body.None? || !Truthy(body.value) ==> r == Failure(Response(400, Error(BodyMissing)))
    ensures body.Some? && Truthy(body.value) && r.Failure? ==> r.error == Response(400, Error(NameInvalid))
    ensures r.Success? ==>
      && body.Some?
      && (exists raw :: Property(body.value, "name") == Some(Str(raw)) && r.value == Trim(raw))
    ensures r.Success? ==> Stripped(r.value) && Utf16Length(r.value) >= MinNameLength
    ensures r.Success? ==> Trim(r.value) == r.value
    ensures body.Some? && Property(body.value, "name").Some? && Property(body.value, "name").value.Str? ==>
      var raw := Property(body.value, "name").value.s;
      (r.Success? <==> Utf16Length(Trim(raw)) >= MinNameLength) &&
      (r.Success? ==> r.value == Trim(raw))
  {
    if body.None? || !Truthy(body.value) then
      Failure(Response(400, Error(BodyMissing)))
    else
      match Property(body.value, "name")
      case None => Failure(Response(400, Error(NameInvalid)))
      case Some(name) =>
        if !Truthy(name) || !name.Str? || Utf16Length(Trim(name.s)) < MinNameLength then
          Failure(Response(400, Error(NameInvalid)))
        else
          TrimIdempotent(name.s);
          Success(Trim(name.s))
  }

  /** A body whose `name` is the string `raw`, and nothing else. */
  function NameBody(raw: string): Value {
    Object(map["name" := Str(raw)])
  }

  /** For any body carrying the string `raw` under `name`, whatever other
      keys it has: exactly the names whose trimmed form has at least two
      UTF-16 code units are accepted, and the accepted value is that
      trimmed form. */
  lemma {:induction false} ValidateNameAccepts(body: Option<Value>, raw: string)
    requires body.Some? && Property(body.value, "name") == Some(Str(raw))
    ensures ValidateName(body).Success? <==> Utf16Length(Trim(raw)) >= MinNameLength
    ensures ValidateName(body).Success? ==> ValidateName(body).value == Trim(raw)
  {
  }

  /** A body with keys besides `name`, such as a price, is judged by its
      name alone. */
  lemma {:induction false} ExtraKeysIgnored(raw: string, key: string, extra: Value)
    requires key != "name"
    ensures ValidateName(Some(Object(map["name" := Str(raw), key := extra]))) == ValidateName(Some(NameBody(raw)))
  {
    ValidateNameAccepts(Some(Object(map["name" := Str(raw), key := extra])), raw);
    ValidateNameAccepts(Some(NameBody(raw)), raw);
  }

  /** Feeding an accepted name back through the middleware accepts it
      unchanged: normalisation is idempotent. */
  lemma {:induction false} ValidateNameIdempotent(body: Option<Value>)
    requires ValidateName(body).Success?
    ensures ValidateName(Some(NameBody(ValidateName(body).value))) == ValidateName(body)
  {
    var v := ValidateName(body).value;
    ValidateNameAccepts(Some(NameBody(v)), v);
  }

  /** Surrounding whitespace never changes the verdict or the stored name. */
  lemma {:induction false} ValidateNameIgnoresPadding(a: string, raw: string, b: string)
    requires AllTrimmable(a) && AllTrimmable(b)
    ensures ValidateName(Some(NameBody(a + raw + b))) == ValidateName(Some(NameBody(raw)))
  {
    TrimIgnoresPadding(a, raw, b);
    ValidateNameAccepts(Some(NameBody(a + raw + b)), a + raw + b);
    ValidateNameAccepts(Some(NameBody(raw)), raw);
  }

  /** A name of one character is accepted when that character lies outside
      the Basic Multilingual Plane, because `length` counts UTF-16 code
      units: U+1F600 is one character but two code units. */
  lemma {:induction false} OneAstralCharacterAccepted()
    ensures |['\U{1F600}']| == 1
    ensures ValidateName(Some(NameBody(['\U{1F600}']))) == Success(['\U{1F600}'])
  {
    var s := ['\U{1F600}'];
    assert !IsTrimmable(s[0]);
    assert LeadingPadding(s) == 0;
    assert s[0..] == s;
    assert TrailingPadding(s) == 0;
    assert Trim(s) == s;
    assert Utf16Length(s) == 2 by {
      assert s[1..] == [];
    }
    ValidateNameAccepts(Some(NameBody(s)), s);
  }

  /** A lone two-character name made only of padding is rejected. */
  lemma {:induction false} BlankNameRejected()
    ensures ValidateName(Some(NameBody("  "))) == Failure(Response(400, Error(NameInvalid)))
  {
  }
}

=== FILE: passwords.dfy ===
/** The password hasher (`hashPassword` / `comparePassword`), left abstract:
    salts, cost factor and constant-time comparison are not part of it. */
module Passwords {

  type Digest = string

  datatype Hasher = Hasher(hash: string -> Digest, compare: (string, Digest) -> bool)

  /** The one property the routes rely on: a password matches its own digest. */
  ghost predicate Sound(h: Hasher) {
    forall p :: h.compare(p, h.hash(p))
  }
}

=== FILE: resources.dfy ===
/**
  The five handlers of routes/items.js and routes/categories.js. The two
  files run the same logic over different collections and differ only in
  their messages, so one model, parameterised by `Collection`, covers both.
 */
module Resources {
  import opened Wrappers
  import opened Json
  import opened Http
  import opened Documents
  import opened NameValidation

  /** Which router: the capitalised and lower-case noun its messages use. */
  datatype Collection = Collection(title: string, noun: string)

  const Items := Collection("Item", "item")
  const Categories := Collection("Category", "category")

  const InvalidId := "Invalid ID format"

  function NotFound(c: Collection): string { c.title + " not found" }
  function CreateFailed(c: Collection): string { "Failed to create " + c.noun }
  function Updated(c: Collection): string { c.title + " updated" }
  function Deleted(c: Collection): string { c.title + " deleted" }

  /** Stored documents carry their `name` as their fields. */
  type Store = seq<Doc<string>>

  datatype Reply = Reply(response: Response, store: Store)

  /** GET / */
  function List(store: Store): (r: Reply)
    ensures r.store == store
    ensures r.response.status == 200
    ensures r.response.body.DocumentList? && r.response.body.docs == store
  {
    Reply(Response(200, DocumentList(store)), store)
  }

  /** GET /:id */
  function Get(c: Collection, ids: IdRules, rawId: string, store: Store): (r: Reply)
    ensures r.store == store
    ensures !ids.isValid(rawId) ==> r.response == Response(400, Error(InvalidId))
    ensures ids.isValid(rawId) && ids.parse(rawId) !in Ids(store) ==>
      r.response == Response(404, Error(NotFound(c)))
    ensures r.response.status == 200 <==> ids.isValid(rawId) && ids.parse(rawId) in Ids(store)
    ensures r.response.status == 200 ==>
      && r.response.body.Document?
      && r.response.body.doc in store
      && r.response.body.doc.id == ids.parse(rawId)
      && Lookup(store, ids.parse(rawId)) == Some(r.response.body.doc.fields)
  {
    if !ids.isValid(rawId) then Reply(Response(400, Error(InvalidId)), store)
    else
      match IndexOf(store, ids.parse(rawId))
      case None => Reply(Response(404, Error(NotFound(c))), store)
      case Some(i) => Reply(Response(200, Document(store[i])), store)
  }

  /** POST / behind `validateName`. `newId` is the `_id` the driver generates
      for the new document. */
  function Create(c: Collection, body: Option<Value>, newId: ObjectId, store: Store): (r: Reply)
    ensures ValidateName(body).Failure? ==> r == Reply(ValidateName(body).error, store)
    ensures r.response.status == 201 <==> ValidateName(body).Success? && newId !in Ids(store)
    ensures ValidateName(body).Success? && newId in Ids(store) ==>
      r == Reply(Response(500, Error(CreateFailed(c))), store)
    ensures r.response.status == 201 ==>
      && r.response.body == Created(newId, ValidateName(body).value)
      && r.store == store + [Doc(newId, ValidateName(body).value)]
      && Lookup(r.store, newId) == Some(ValidateName(body).value)
      && (forall k :: k != newId ==> Lookup(r.store, k) == Lookup(store, k))
    ensures UniqueIds(store) ==> UniqueIds(r.store)
  {
    match ValidateName(body)
    case Failure(e) => Reply(e, store)
    case Success(name) =>
      match InsertOne(store, Doc(newId, name))
      case None => Reply(Response(500, Error(CreateFailed(c))), store)
      case Some(store') => Reply(Response(201, Created(newId, name)), store')
  }

  /** PUT /:id behind `validateName`. */
  function Update(c: Collection, ids: IdRules, rawId: string, body: Option<Value>, store: Store): (r: Reply)
    ensures ValidateName(body).Failure? ==> r == Reply(ValidateName(body).error, store)
    ensures ValidateName(body).Success? && !ids.isValid(rawId) ==>
      r == Reply(Response(400, Error(InvalidId)), store)
    ensures ValidateName(body).Success? && ids.isValid(rawId) && ids.parse(rawId) !in Ids(store) ==>
      r == Reply(Response(404, Error(NotFound(c))), store)
    ensures r.response.status == 200 <==>
      ValidateName(body).Success? && ids.isValid(rawId) && ids.parse(rawId) in Ids(store)
    ensures r.response.status == 200 ==>
      && r.response.body == Message(Updated(c))
      && Lookup(r.store, ids.parse(rawId)) == Some(ValidateName(body).value)
    ensures forall k :: ids.isValid(rawId) && k != ids.parse(rawId) ==> Lookup(r.store, k) == Lookup(store, k)
    ensures |r.store| == |store| && Ids(r.store) == Ids(store)
    ensures forall k :: 0 <= k < |store| ==> r.store[k].id == store[k].id
    ensures r.response.status == 200 ==>
      exists i :: IndexOf(store, ids.parse(rawId)) == Some(i)
                  && r.store == store[i := Doc(ids.parse(rawId), ValidateName(body).value)]
    ensures UniqueIds(store) ==> UniqueIds(r.store)
  {
    match ValidateName(body)
    case Failure(e) => Reply(e, store)
    case Success(name) =>
      if !ids.isValid(rawId) then Reply(Response(400, Error(InvalidId)), store)
      else
        var (store', matched) := UpdateOne(store, ids.parse(rawId), name);
        if !matched then Reply(Response(404, Error(NotFound(c))), store)
        else Reply(Response(200, Message(Updated(c))), store')
  }

  /** DELETE /:id */
  function Delete(c: Collection, ids: IdRules, rawId: string, store: Store): (r: Reply)
    ensures !ids.isValid(rawId) ==> r == Reply(Response(400, Error(InvalidId)), store)
    ensures ids.isValid(rawId) && ids.parse(rawId) !in Ids(store) ==>
      r == Reply(Response(404, Error(NotFound(c))), store)
    ensures r.response.status == 200 <==> ids.isValid(rawId) && ids.parse(rawId) in Ids(store)
    ensures r.response.status == 200 ==>
      && r.response.body == Message(Deleted(c))
      && |r.store| == |store| - 1
    ensures forall k :: ids.isValid(rawId) && k != ids.parse(rawId) ==> Lookup(r.store, k) == Lookup(store, k)
    ensures UniqueIds(store) ==> UniqueIds(r.store)
    ensures UniqueIds(store) && ids.isValid(rawId) ==> Lookup(r.store, ids.parse(rawId)).None?
    ensures r.response.status == 200 ==>
      exists i :: IndexOf(store, ids.parse(rawId)) == Some(i) && r.store == store[..i] + store[i + 1..]
  {
    if !ids.isValid(rawId) then Reply(Response(400, Error(InvalidId)), store)
    else
      var (store', deleted) := DeleteOne(store, ids.parse(rawId));
      if !deleted then Reply(Response(404, Error(NotFound(c))), store)
      else Reply(Response(200, Message(Deleted(c))), store')
  }

  /** A request to one of the two routers. */
  datatype Request =
    | ListRequest
    | GetRequest(rawId: string)
    | CreateRequest(body: Option<Value>, newId: ObjectId)
    | UpdateRequest(rawId: string, body: Option<Value>)
    | DeleteRequest(rawId: string)

  function Serve(c: Collection, ids: IdRules, store: Store, req: Request): (r: Reply)
    ensures UniqueIds(store) ==> UniqueIds(r.store)
  {
    match req
    case ListRequest => List(store)
    case GetRequest(rawId) => Get(c, ids, rawId, store)
    case CreateRequest(body, newId) => Create(c, body, newId, store)
    case UpdateRequest(rawId, body) => Update(c, ids, rawId, body, store)
    case DeleteRequest(rawId) => Delete(c, ids, rawId, store)
  }

  /** The collection after serving `reqs` in order. */
  function Run(c: Collection, ids: IdRules, store: Store, reqs: seq<Request>): Store
    decreases |reqs|
  {
    if reqs == [] then store
    else Run(c, ids, Serve(c, ids, store, reqs[0]).store, reqs[1..])
  }

  /** No sequence of requests can put two documents under one `_id`. */
  lemma {:induction false} RunKeepsIdsUnique(c: Collection, ids: IdRules, store: Store, reqs: seq<Request>)
    requires UniqueIds(store)
    ensures UniqueIds(Run(c, ids, store, reqs))
    decreases |reqs|
  {
    if reqs != [] {
      RunKeepsIdsUnique(c, ids, Serve(c, ids, store, reqs[0]).store, reqs[1..]);
    }
  }

  /** A created document can be fetched back with the trimmed name. */
  lemma {:induction false} CreateThenGet(c: Collection, ids: IdRules, body: Option<Value>, newId: ObjectId, rawId: string, store: Store)
    requires ids.isValid(rawId) && ids.parse(rawId) == newId
    requires Create(c, body, newId, store).response.status == 201
    ensures Get(c, ids, rawId, Create(c, body, newId, store).store).response
      == Response(200, Document(Doc(newId, ValidateName(body).value)))
  {
  }

  /** After a successful update, a fetch sees the new name. */
  lemma {:induction false} UpdateThenGet(c: Collection, ids: IdRules, rawId: string, body: Option<Value>, store: Store)
    requires Update(c, ids, rawId, body, store).response.status == 200
    ensures Get(c, ids, rawId, Update(c, ids, rawId, body, store).store).response
      == Response(200, Document(Doc(ids.parse(rawId), ValidateName(body).value)))
  {
  }

  /** After a successful delete, a fetch of the same id is a 404. */
  lemma {:induction false} DeleteThenGet(c: Collection, ids: IdRules, rawId: string, store: Store)
    requires UniqueIds(store)
    requires Delete(c, ids, rawId, store).response.status == 200
    ensures Get(c, ids, rawId, Delete(c, ids, rawId, store).store).response == Response(404, Error(NotFound(c)))
  {
  }

  /** A bad name wins over a bad id: `validateName` runs before the handler
      looks at the id, so the id does not influence the answer. */
  lemma {:induction false} ValidationPrecedesIdCheck(c: Collection, ids: IdRules, id1: string, id2: string, body: Option<Value>, store: Store)
    requires ValidateName(body).Failure?
    ensures Update(c, ids, id1, body, store) == Update(c, ids, id2, body, store)
    ensures Update(c, ids, id1, body, store).response.status == 400
  {
  }
}

=== FILE: wrappers.dfy ===
/** Option and Result, shared by the whole model. */
module Wrappers {

  /** A value that may be absent: a lookup miss, an undefined property. */
  datatype Option<+T> = None | Some(value: T)

  /** The outcome of a step that either produces a value or stops with an error. */
  datatype Result<+R, +E> = Success(value: R) | Failure(error: E)
}
